=== FILE: README.md ===
# DynamoDB capacity alarms for Serverless — a Dafny model

This project models the transformation at the heart of the Serverless plugin
`serverless-dynamodb-alarms-plugin` (`index.js`). The plugin reads the
`custom['dynamo-alarms']` block of a service and picks every
`AWS::DynamoDB::Table` resource that passes the configured filter. For each
such table it builds an `AWS::CloudWatch::Alarm` on
`ConsumedReadCapacityUnits`, on `ConsumedWriteCapacityUnits`, or on both,
depending on which thresholds are truthy. It then merges those alarms into
the compiled CloudFormation template's `Resources`.

Modules, leaf first:

- `Wrappers` holds `Option` (an `undefined` field) and `Result` (a value, or the exception that aborted the run).
- `Sanitize` is `TableName.replace(/[^0-9a-z]/gi, '')`. In non-unicode mode the case-insensitive class `[0-9a-z]` accepts exactly the ASCII letters and digits.
- `Config` holds the `AlarmConfig` constructor (`Build`) and `tableNameMatches`, plus `FilterSpec`, a reference reading of the filter as "match all" or "an allow-list".
- `Tables` holds `matchFilters` and `findDynamoTables`. The resource map is a sequence of entries in `Object.entries` order. The `reduce` in `findDynamoTables` inserts keys in that order, so the selection's enumeration order is the input's order filtered, which the sequence reproduces.
- `Alarms` holds `createAlarm`, `createReadAlarm`, `createWriteAlarm` and the per-table snippet `{ ...readAlarm, ...writeAlarm }`. The predicate `WellFormed` says what every generated alarm looks like.
- `Templates` holds the part of lodash `_.merge` that this call exercises. A generated alarm goes onto an absent key, onto an alarm already there, or onto another resource. Defined scalars overwrite, `undefined` scalars keep the old value, and arrays merge index by index.
- `Plugin` holds the pure part of `addAlarms`, with its key, last-writer-wins and idempotence lemmas.
- `Scenarios` holds two worked instances: an explicit filter, and a sanitisation collision.

Exceptions are modelled as `Failure` results (`Config.Error`):

- `MissingFilter`: `filter` is absent, so `filter[0]` throws.
- `MissingResources`: `resources.Resources` is absent, so `Object.entries` throws.
- `MissingTableName`: an alarm kind is enabled, but a selected table has no string `TableName`, so `.replace` throws.

Every snippet is computed before the first merge. So a run that throws leaves the template untouched, and `AddAlarms` returns the new `Resources` only on success.

Behaviour worth knowing about, modelled as the code has it:

- An empty `filter` list is not an error. `filter[0]` is `undefined`, so the list matches no table.
- `period`, `evaluationPeriods` and `topicName` are not validated. When one is missing, it is copied into the alarm as `undefined` (`None`).
- Only the flat config (`readCapacityAlarmThreshold` and `writeCapacityAlarmThreshold`) exists. It yields `...ReadAlarm` and `...WriteAlarm` ids on `Consumed*CapacityUnits` metrics. There are no throttle alarms and no `ProvisionedCapacity` metrics.

## Model

| member | source | states |
|---|---|---|
| Sanitize.StripNonAlphaNumeric | index.js:67 | the sanitised name contains only `[0-9a-zA-Z]` and is no longer than the input |
| Sanitize.StripAppend | index.js:67 | sanitisation distributes over concatenation, so kept characters stay in their original order |
| Sanitize.StripKeepsExactlyAlphaNumeric | index.js:67 | each ASCII letter or digit keeps its number of occurrences (upper case included); every other character disappears |
| Sanitize.StripFixesExactlyAlphaNumeric | index.js:67 | a string is unchanged by sanitisation if and only if it is already alphanumeric |
| Sanitize.StripIdempotent | index.js:67 | sanitising a sanitised name changes nothing |
| Sanitize.StripNotInjective | index.js:67-69 | `orders-1` and `orders_1` sanitise to the same `orders1`, so alarm ids can collide |
| Config.Build | index.js:96-106 | the constructor fails exactly when `filter` is missing; read/write alarms are enabled iff their threshold is present and non-zero; the other fields are copied |
| Config.SpecOf | index.js:102-103 | only a `*` in the first position means match-all; otherwise the spec is the set of listed names, and a later `*` is just a name |
| Config.MatchesAgreesWithSpec | index.js:103-110 | `tableNameMatches` agrees with the match-all / allow-list reading of the filter for every name |
| Config.FilterSemantics | index.js:103-110 | a leading `*` matches every name; an empty list matches none; otherwise a name matches iff it is listed |
| Tables.FindDynamoTables | index.js:16-24 | an entry is selected iff it is in the input and passes `matchFilters`, with its value unchanged |
| Tables.FindAppend | index.js:16-24 | selection of a concatenation is the concatenation of the selections, so input order is kept |
| Tables.TypeGate | index.js:26-28 | only resources of type exactly `AWS::DynamoDB::Table` are selected, whatever the filter |
| Tables.FindKeepsUniqueKeys | index.js:16-24 | the selection of an object has unique keys |
| Tables.SelectionIsSubMap | index.js:16-24 | viewed as objects, the selection equals the input restricted to the keys that pass `matchFilters`: no key added, values identical |
| Alarms.CreateAlarm | index.js:66-92 | one alarm keyed by sanitised name + suffix, whose dimension is the unsanitised `TableName` and whose metric and threshold are the given ones |
| Alarms.CreateReadAlarm | index.js:58-60 | the read alarm is keyed `<sanitised>ReadAlarm`, is well formed for the config (fixed wiring, config period / evaluation periods / read threshold, both actions `[Ref topicName]`) and watches `ConsumedReadCapacityUnits` |
| Alarms.CreateWriteAlarm | index.js:62-64 | the same for `<sanitised>WriteAlarm`, the write threshold and `ConsumedWriteCapacityUnits` |
| Alarms.ReadWriteKeysDistinct | index.js:58-69 | a read-alarm id never equals a write-alarm id, for any two table names |
| Alarms.KeysCollideIff | index.js:67-69 | two tables share an alarm id of one kind iff their names sanitise to the same string |
| Alarms.AlarmKeyAlphaNumeric | index.js:67-69 | every alarm id is alphanumeric and is a fixed point of sanitisation |
| Alarms.Snippet | index.js:40-50 | the snippet throws iff an alarm kind is enabled and `TableName` is missing, naming the resource; otherwise it holds exactly one id per enabled kind |
| Alarms.SnippetWellFormed | index.js:40-50 | a table contributes at most two alarms, each well formed for its id and naming that table's `TableName` |
| Alarms.Snippets | index.js:40-51 | the snippets of all tables, in order; the run fails iff some table's snippet fails, reporting a table's name |
| Templates.MergeInto | index.js:54 | one merge keeps every existing key, adds every generated key, and leaves keys it does not generate untouched |
| Templates.MergeAll | index.js:53-55 | the merged resources have the old keys plus every snippet key; other keys are untouched |
| Templates.MergeArraysIdempotent | index.js:54 | merging the same array twice equals merging it once |
| Templates.MergeArraysOverride | index.js:54 | with a "newer wins" element merge, a later array at least as long overrides an earlier one |
| Templates.MergeArraysSelf | index.js:54 | merging an array onto itself leaves it unchanged |
| Templates.MergeAlarmLaterWins | index.js:53-55 | merging an alarm onto one with the same settings yields the later alarm |
| Templates.MergeAlarmAbsorbs | index.js:53-55 | a second merge of an alarm with the same settings absorbs the first |
| Templates.MergeEntryAbsorbs | index.js:53-55 | the same absorption for a template entry that was absent, an alarm, or another resource |
| Templates.MergeIntoIdempotent | index.js:53-55 | merging the same snippet twice gives the same resources as merging it once |
| Templates.MergeAllLastWins | index.js:53-55 | after all merges, a generated key holds the last snippet's alarm merged onto its previous entry; keys no snippet has are untouched |
| Templates.MergeAllIdempotent | index.js:53-55 | repeating the whole sequence of merges changes nothing |
| Plugin.AddAlarms | index.js:30-56 | without `dynamo-alarms` the resources are unchanged; a missing filter or resource map is an error; on success no existing key is dropped |
| Plugin.WellFormedSameSettings | index.js:58-92 | two alarms generated from one config for the same id have the same kind and settings |
| Plugin.SnippetsWellFormed | index.js:40-51 | every generated alarm is well formed for its id and names its own table |
| Plugin.SnippetsUniform | index.js:40-51 | all alarms generated for one id agree on their settings |
| Plugin.SnippetsKeys | index.js:40-51 | snippet i holds an id iff table i generates it |
| Plugin.SelectionKeys | index.js:38-51 | the ids in the snippets are exactly those some selected table generates |
| Plugin.AddAlarmsKeys | index.js:30-56 | after `addAlarms` a key is present iff it was present before or some selected table generates it |
| Plugin.AddAlarmsKeepsOthers | index.js:30-56 | a key that no selected table generates keeps its previous entry |
| Plugin.AddAlarmsNewEntriesWellFormed | index.js:30-56 | every key `addAlarms` adds holds a well-formed alarm whose dimension is the `TableName` of a selected table |
| Plugin.AddAlarmsLaterTableWins | index.js:40-55 | when several selected tables generate an id, it ends up holding the last such table's alarm, merged onto its previous entry |
| Plugin.AddAlarmsIdempotent | index.js:30-56 | running `addAlarms` again on its own output changes nothing |
| Scenarios.ExplicitFilterScenario | index.js:16-28 | with filter `["OrdersTable"]`, only `OrdersTable` is selected out of `OrdersTable` and `UsersTable` |
| Scenarios.CollisionScenario | index.js:30-69 | two tables whose names sanitise alike produce a single read alarm, which holds the second table's `TableName` |

## Left out

- The plugin constructor, `getProvider` and the hook registration (index.js:6-14) are host-framework wiring. The model starts from the values `addAlarms` reads.
- The log line (index.js:49) is I/O. It also reads `item.tableName`, which is always `undefined`.
- JavaScript truthiness is modelled only for integer thresholds (`None` and `Some(0)` are falsy). Thresholds given as strings, `NaN` or other values are not modelled.
- Config.Build: only a filter that is a list of strings is modelled. The source merely indexes the filter and calls `.includes` on it (index.js:103, 109), so other values behave differently. A string whose first character is `*` (such as `'*'` or `'*foo'`) matches every table, because its `[0]` is `'*'`. Any other string matches by substring, so `'Orders'` admits tables named `Ord` or `Orders`. A number leaves match-all off and then throws in `tableNameMatches` at the first DynamoDB table.
- Templates.MergeEntry: a generated alarm merged onto a template resource that is not an alarm replaces it. lodash would produce a field-wise hybrid of the two objects, which this restricted merge does not represent.
- An alarm already in the template is represented only by the fields a generated alarm has. Any extra fields, which lodash would keep, are not represented.
- Plugin.AddAlarms: when the whole `resources` section is absent, the source throws at index.js:35, before the config is built. The model checks the resource map after the config, so when the filter is also missing it reports `MissingFilter` rather than the resource error. In both cases the run fails and the template is unchanged.
- The `TypeError`s the model represents are reduced to the three `Config.Error` cases; the error message text is not modelled. The throws named in the `Config.Build` and `Tables.FindDynamoTables` lines are not represented at all.
- Tables.FindDynamoTables: a resource entry whose value is `null` throws at index.js:20 when `properties.Type` is read, before any filter applies and whatever the entry's name. `Tables.Resource` always has a type, so it cannot represent such an entry, and the model never reports that error.

=== FILE: alarms.dfy ===
/** Synthesis of CloudWatch alarm resources for one DynamoDB table
    (`createAlarm`, `createReadAlarm`, `createWriteAlarm` and the per-table
    snippet built inside `addAlarms`). */
module Alarms {
  import opened Wrappers
  import opened Sanitize
  import opened Config
  import opened Tables

  const AlarmType: string := "AWS::CloudWatch::Alarm"
  const DynamoNamespace: string := "AWS/DynamoDB"
  const MaximumStatistic: string := "Maximum"
  const GreaterOrEqual: string := "GreaterThanOrEqualToThreshold"
  const NotBreaching: string := "notBreaching"
  const TableNameDimension: string := "TableName"
  const DescriptionPrefix: string := "DynamoDB capacity alarm for "

  const ReadSuffix: string := "ReadAlarm"
  const WriteSuffix: string := "WriteAlarm"
  const ReadMetric: string := "ConsumedReadCapacityUnits"
  const WriteMetric: string := "ConsumedWriteCapacityUnits"

  datatype Dimension = Dimension(name: string, value: string)

  /** `{ Ref: topicName }`; the topic may be undefined in the config. */
  datatype Ref = Ref(ref: Option<string>)

  datatype AlarmProperties = AlarmProperties(
    alarmDescription: string,
    namespace: string,
    metricName: string,
    dimensions: seq<Dimension>,
    statistic: string,
    period: Option<int>,
    evaluationPeriods: Option<int>,
    threshold: Option<int>,
    comparisonOperator: string,
    treatMissingData: string,
    alarmActions: seq<Ref>,
    okActions: seq<Ref>)

  /** An `AWS::CloudWatch::Alarm` resource definition. */
  datatype Alarm = Alarm(resourceType: string, properties: AlarmProperties)

  /** The logical id of an alarm: the sanitised table name and a suffix. */
  function AlarmKey(tableName: string, suffix: string): (key: string)
  {
    StripNonAlphaNumeric(tableName) + suffix
  }

  /** What every alarm built from `cfg` looks like: fixed wiring, the
      shared settings of the config, a single `TableName` dimension holding
      the unsanitised table name, and a logical id `key` derived from that
      name and from the alarm's kind (read or write). */
  predicate WellFormed(key: string, a: Alarm, cfg: AlarmConfig)
  {
    var p := a.properties;
    && a.resourceType == AlarmType
    && p.namespace == DynamoNamespace
    && p.statistic == MaximumStatistic
    && p.comparisonOperator == GreaterOrEqual
    && p.treatMissingData == NotBreaching
    && p.period == cfg.period
    && p.evaluationPeriods == cfg.evaluationPeriods
    && p.alarmActions == [Ref(cfg.topicName)]
    && p.okActions == [Ref(cfg.topicName)]
    && |p.dimensions| == 1
    && p.dimensions[0].name == TableNameDimension
    && p.alarmDescription == DescriptionPrefix + p.dimensions[0].value
    && (|| (p.metricName == ReadMetric
            && key == AlarmKey(p.dimensions[0].value, ReadSuffix)
            && p.threshold == cfg.readCapacityAlarmThreshold)
        || (p.metricName == WriteMetric
            && key == AlarmKey(p.dimensions[0].value, WriteSuffix)
            && p.threshold == cfg.writeCapacityAlarmThreshold))
  }

  /** `ServerlessPlugin.createAlarm`: a one-entry object keyed by the
      sanitised table name plus `alarmName`. */
  function CreateAlarm(tableName: string, cfg: AlarmConfig, alarmName: string,
                       metricName: string, threshold: Option<int>): (r: map<string, Alarm>)
    ensures r.Keys == {AlarmKey(tableName, alarmName)}
    ensures forall k :: k in r ==>
      && r[k].properties.dimensions == [Dimension(TableNameDimension, tableName)]
      && r[k].properties.metricName == metricName
      && r[k].properties.threshold == threshold
  {
    var key := AlarmKey(tableName, alarmName);
    var alarm := Alarm(AlarmType, AlarmProperties(
      DescriptionPrefix + tableName,
      DynamoNamespace,
      metricName,
      [Dimension(TableNameDimension, tableName)],
      MaximumStatistic,
      cfg.period,
      cfg.evaluationPeriods,
      threshold,
      GreaterOrEqual,
      NotBreaching,
      [Ref(cfg.topicName)],
      [Ref(cfg.topicName)]));
    map[key := alarm]
  }

  /** `ServerlessPlugin.createReadAlarm`. */
  function CreateReadAlarm(tableName: string, cfg: AlarmConfig): (r: map<string, Alarm>)
    ensures r.Keys == {AlarmKey(tableName, ReadSuffix)}
    ensures forall k :: k in r ==>
      && WellFormed(k, r[k], cfg)
      && r[k].properties.metricName == ReadMetric
      && r[k].properties.dimensions[0].value == tableName
  {
    CreateAlarm(tableName, cfg, ReadSuffix, ReadMetric, cfg.readCapacityAlarmThreshold)
  }

  /** `ServerlessPlugin.createWriteAlarm`. */
  function CreateWriteAlarm(tableName: string, cfg: AlarmConfig): (r: map<string, Alarm>)
    ensures r.Keys == {AlarmKey(tableName, WriteSuffix)}
    ensures forall k :: k in r ==>
      && WellFormed(k, r[k], cfg)
      && r[k].properties.metricName == WriteMetric
      && r[k].properties.dimensions[0].value == tableName
  {
    CreateAlarm(tableName, cfg, WriteSuffix, WriteMetric, cfg.writeCapacityAlarmThreshold)
  }

  /** A read-alarm id and a write-alarm id never coincide, whatever the two
      table names are. */
  lemma ReadWriteKeysDistinct(t1: string, t2: string)
    ensures AlarmKey(t1, ReadSuffix) != AlarmKey(t2, WriteSuffix)
  {
    var s1, s2 := StripNonAlphaNumeric(t1), StripNonAlphaNumeric(t2);
    var k1, k2 := s1 + ReadSuffix, s2 + WriteSuffix;
    assert k1[|s1|] == 'R';
    assert k2[|s2| + 1] == 'r';
    if |k1| == |k2| {
      assert |s1| == |s2| + 1;
      assert k1[|s1|] != k2[|s1|];
    }
  }

  /** Two tables get the same alarm id for one kind exactly when their names
      sanitise to the same string. */
  lemma KeysCollideIff(t1: string, t2: string, suffix: string)
    ensures AlarmKey(t1, suffix) == AlarmKey(t2, suffix)
            <==> StripNonAlphaNumeric(t1) == StripNonAlphaNumeric(t2)
  {
    var s1, s2 := StripNonAlphaNumeric(t1), StripNonAlphaNumeric(t2);
    if AlarmKey(t1, suffix) == AlarmKey(t2, suffix) {
      assert |s1| == |s2|;
      assert s1 == (s1 + suffix)[..|s1|];
      assert s2 == (s2 + suffix)[..|s2|];
    }
  }

  /** Every alarm id is alphanumeric, and sanitising it changes nothing. */
  lemma AlarmKeyAlphaNumeric(tableName: string, suffix: string)
    requires suffix == ReadSuffix || suffix == WriteSuffix
    ensures AllAlphaNumeric(AlarmKey(tableName, suffix))
    ensures StripNonAlphaNumeric(AlarmKey(tableName, suffix)) == AlarmKey(tableName, suffix)
  {
    var k := AlarmKey(tableName, suffix);
    var s := StripNonAlphaNumeric(tableName);
    forall i | 0 <= i < |k| ensures IsAlphaNumeric(k[i]) {
      if i >= |s| {
        assert k[i] == suffix[i - |s|];
      }
    }
    StripFixesExactlyAlphaNumeric(k);
  }

  /** The ids a table contributes under `cfg`: one per enabled kind. */
  predicate GeneratesKey(res: Resource, cfg: AlarmConfig, k: string)
  {
    && res.tableName.Some?
    && (|| (cfg.createReadAlarm && k == AlarmKey(res.tableName.value, ReadSuffix))
        || (cfg.createWriteAlarm && k == AlarmKey(res.tableName.value, WriteSuffix)))
  }

  /** The snippet `{ ...readAlarm, ...writeAlarm }` built for one selected
      table; it throws when an alarm is enabled but the table has no string
      `TableName`. */
  function Snippet(name: string, res: Resource, cfg: AlarmConfig): (r: Result<map<string, Alarm>, Error>)
    ensures r.Failure? <==> (cfg.createReadAlarm || cfg.createWriteAlarm) && res.tableName.None?
    ensures r.Failure? ==> r.error == MissingTableName(name)
    ensures r.Success? ==> forall k :: k in r.value <==> GeneratesKey(res, cfg, k)
  {
    if !cfg.createReadAlarm && !cfg.createWriteAlarm then
      Success(map[])
    else if res.tableName.None? then
      Failure(MissingTableName(name))
    else
      var tableName := res.tableName.value;
      var readAlarm := if cfg.createReadAlarm then CreateReadAlarm(tableName, cfg) else map[];
      var writeAlarm := if cfg.createWriteAlarm then CreateWriteAlarm(tableName, cfg) else map[];
      Success(readAlarm + writeAlarm)
  }

  /** A table contributes at most two alarms, each well formed for its id
      and naming that table. */
  lemma SnippetWellFormed(name: string, res: Resource, cfg: AlarmConfig)
    requires Snippet(name, res, cfg).Success?
    ensures var alarms := Snippet(name, res, cfg).value;
            && |alarms| <= 2
            && forall k :: k in alarms ==>
                 WellFormed(k, alarms[k], cfg)
                 && res.tableName == Some(alarms[k].properties.dimensions[0].value)
  {
    var alarms := Snippet(name, res, cfg).value;
    if cfg.createReadAlarm && cfg.createWriteAlarm {
      var t := res.tableName.value;
      assert alarms.Keys == {AlarmKey(t, ReadSuffix), AlarmKey(t, WriteSuffix)};
    } else if cfg.createReadAlarm || cfg.createWriteAlarm {
      assert |alarms.Keys| == 1;
    }
  }

  /** The per-table snippets of all selected tables, in order; the first
      table that throws aborts the whole run. */
  function Snippets(tables: Entries, cfg: AlarmConfig): (r: Result<seq<map<string, Alarm>>, Error>)
    ensures r.Success? <==> forall i :: 0 <= i < |tables| ==> Snippet(tables[i].0, tables[i].1, cfg).Success?
    ensures r.Failure? ==> exists i :: 0 <= i < |tables| && r.error == MissingTableName(tables[i].0)
    ensures r.Success? ==> |r.value| == |tables|
    ensures r.Success? ==> forall i :: 0 <= i < |tables| ==> Snippet(tables[i].0, tables[i].1, cfg) == Success(r.value[i])
  {
    if tables == [] then Success([])
    else
      match Snippet(tables[0].0, tables[0].1, cfg)
      case Failure(e) => Failure(e)
      case Success(first) =>
        match Snippets(tables[1..], cfg)
        case Failure(e) =>
          assert forall i :: 0 <= i < |tables[1..]| ==> tables[1..][i] == tables[i + 1];
          Failure(e)
        case Success(rest) =>
          assert forall i :: 0 <= i < |tables[1..]| ==> tables[1..][i] == tables[i + 1];
          Success([first] + rest)
  }
}

=== FILE: config.dfy ===
/** The plugin's alarm configuration (`class AlarmConfig`): the raw
    `custom['dynamo-alarms']` block normalised into enablement flags and a
    table-name filter. */
module Config {
  import opened Wrappers

  /** The ways the modelled code can throw. */
  datatype Error =
    | MissingFilter                      // `alarmConfig.filter[0]` on an undefined filter
    | MissingResources                   // `Object.entries` of an undefined resource map
    | MissingTableName(resource: string) // `item.TableName.replace` without a string TableName

  /** The user's `custom['dynamo-alarms']` block; an absent field is `None`. */
  datatype RawConfig = RawConfig(
    readCapacityAlarmThreshold: Option<int>,
    writeCapacityAlarmThreshold: Option<int>,
    period: Option<int>,
    evaluationPeriods: Option<int>,
    topicName: Option<string>,
    filter: Option<seq<string>>)

  /** The constructed `AlarmConfig` object. */
  datatype AlarmConfig = AlarmConfig(
    readCapacityAlarmThreshold: Option<int>,
    writeCapacityAlarmThreshold: Option<int>,
    period: Option<int>,
    evaluationPeriods: Option<int>,
    topicName: Option<string>,
    filterRules: seq<string>,
    addToAll: bool,
    createReadAlarm: bool,
    createWriteAlarm: bool)

  /** JavaScript's `!!t` on a numeric threshold: absent and zero are falsy. */
  predicate Truthy(t: Option<int>)
  {
    t.Some? && t.value != 0
  }

  /** The `AlarmConfig` constructor; it throws when `filter` is missing. */
  function Build(raw: RawConfig): (r: Result<AlarmConfig, Error>)
    ensures r.Failure? <==> raw.filter.None?
    ensures r.Failure? ==> r.error == MissingFilter
    ensures r.Success? ==>
      && (r.value.createReadAlarm <==> raw.readCapacityAlarmThreshold !in {None, Some(0)})
      && (r.value.createWriteAlarm <==> raw.writeCapacityAlarmThreshold !in {None, Some(0)})
      && r.value.readCapacityAlarmThreshold == raw.readCapacityAlarmThreshold
      && r.value.writeCapacityAlarmThreshold == raw.writeCapacityAlarmThreshold
      && r.value.period == raw.period
      && r.value.evaluationPeriods == raw.evaluationPeriods
      && r.value.topicName == raw.topicName
      && r.value.filterRules == raw.filter.value
  {
    match raw.filter
    case None => Failure(MissingFilter)
    case Some(filter) =>
      Success(AlarmConfig(
        raw.readCapacityAlarmThreshold,
        raw.writeCapacityAlarmThreshold,
        raw.period,
        raw.evaluationPeriods,
        raw.topicName,
        filter,
        |filter| > 0 && filter[0] == "*",
        Truthy(raw.readCapacityAlarmThreshold),
        Truthy(raw.writeCapacityAlarmThreshold)))
  }

  /** `AlarmConfig.tableNameMatches`. */
  predicate TableNameMatches(cfg: AlarmConfig, name: string)
  {
    cfg.addToAll || name in cfg.filterRules
  }

  /** The filter as a reader of the configuration understands it: either a
      wildcard or an allow-list of names. */
  datatype FilterSpec = MatchAll | ExplicitNames(names: set<string>)

  /** Only a wildcard in the first position means "every table"; a `*`
      anywhere else is an ordinary name. */
  function SpecOf(filter: seq<string>): (spec: FilterSpec)
    ensures spec.ExplicitNames? ==> forall n :: n in spec.names <==> n in filter
    ensures spec.MatchAll? <==> |filter| > 0 && filter[0] == "*"
  {
    if |filter| > 0 && filter[0] == "*" then MatchAll
    else ExplicitNames(set n | n in filter)
  }

  predicate SpecMatches(spec: FilterSpec, name: string)
  {
    match spec
    case MatchAll => true
    case ExplicitNames(names) => name in names
  }

  /** The constructed config matches exactly the names its filter spec
      admits. */
  lemma MatchesAgreesWithSpec(raw: RawConfig, name: string)
    requires raw.filter.Some?
    ensures Build(raw).Success?
    ensures TableNameMatches(Build(raw).value, name) <==> SpecMatches(SpecOf(raw.filter.value), name)
  {
  }

  /** The three observable filter behaviours: a leading wildcard admits every
      name, an empty list admits none, and otherwise membership decides. */
  lemma FilterSemantics(raw: RawConfig, name: string)
    requires raw.filter.Some?
    ensures Build(raw).Success?
    ensures |raw.filter.value| > 0 && raw.filter.value[0] == "*" ==> TableNameMatches(Build(raw).value, name)
    ensures raw.filter.value == [] ==> !TableNameMatches(Build(raw).value, name)
    ensures |raw.filter.value| > 0 && raw.filter.value[0] != "*" ==>
              (TableNameMatches(Build(raw).value, name) <==> name in raw.filter.value)
  {
  }
}

=== FILE: plugin.dfy ===
/** The pure part of `ServerlessPlugin.addAlarms`: build the config, select
    the tables, synthesise their alarm snippets and merge them, in order,
    into the compiled template's resources. */
module Plugin {
  import opened Wrappers
  import opened Config
  import opened Tables
  import opened Alarms
  import opened Templates

  /** What `addAlarms` reads from `this.serverless.service`: the
      `custom['dynamo-alarms']` block (`None` when it or `custom` is
      absent or falsy), `resources.Resources` in enumeration order (`None`
      when undefined) and the compiled template's `Resources`. */
  datatype Service = Service(custom: Option<RawConfig>, resources: Option<Entries>, compiled: Resources)

  /** The compiled resources after `addAlarms`, or the error it throws; a
      thrown error leaves the compiled resources untouched, since every
      snippet is built before the first merge. */
  function AddAlarms(svc: Service): (r: Result<Resources, Error>)
    ensures svc.custom.None? ==> r == Success(svc.compiled)
    ensures svc.custom.Some? && svc.custom.value.filter.None? ==> r == Failure(MissingFilter)
    ensures svc.custom.Some? && svc.custom.value.filter.Some? && svc.resources.None? ==> r == Failure(MissingResources)
    ensures r.Success? ==> svc.compiled.Keys <= r.value.Keys
  {
    match svc.custom
    case None => Success(svc.compiled)
    case Some(raw) =>
      var cfg :- Build(raw);
      var resources :- svc.resources.ToResult(MissingResources);
      var snippets :- Snippets(FindDynamoTables(resources, cfg), cfg);
      Success(MergeAll(svc.compiled, snippets))
  }

  /** Two alarms built from one config for the same logical id are of the
      same kind and agree on every setting a merge could keep. */
  lemma WellFormedSameSettings(k: string, a1: Alarm, a2: Alarm, cfg: AlarmConfig)
    requires WellFormed(k, a1, cfg) && WellFormed(k, a2, cfg)
    ensures SameSettings(a1, a2)
  {
    var t1, t2 := a1.properties.dimensions[0].value, a2.properties.dimensions[0].value;
    ReadWriteKeysDistinct(t1, t2);
    ReadWriteKeysDistinct(t2, t1);
  }

  /** Every alarm of every snippet is well formed for its key. */
  lemma SnippetsWellFormed(tables: Entries, cfg: AlarmConfig, snippets: seq<AlarmMap>)
    requires Snippets(tables, cfg) == Success(snippets)
    ensures forall i, k :: 0 <= i < |snippets| && k in snippets[i] ==>
              WellFormed(k, snippets[i][k], cfg)
              && tables[i].1.tableName == Some(snippets[i][k].properties.dimensions[0].value)
  {
    forall i, k | 0 <= i < |snippets| && k in snippets[i]
      ensures WellFormed(k, snippets[i][k], cfg)
      ensures tables[i].1.tableName == Some(snippets[i][k].properties.dimensions[0].value)
    {
      assert Snippet(tables[i].0, tables[i].1, cfg) == Success(snippets[i]);
      SnippetWellFormed(tables[i].0, tables[i].1, cfg);
    }
  }

  lemma SnippetsUniform(tables: Entries, cfg: AlarmConfig, snippets: seq<AlarmMap>)
    requires Snippets(tables, cfg) == Success(snippets)
    ensures forall k :: UniformAt(snippets, k)
  {
    SnippetsWellFormed(tables, cfg, snippets);
    forall k, i, j | 0 <= i < |snippets| && 0 <= j < |snippets| && k in snippets[i] && k in snippets[j]
      ensures SameSettings(snippets[i][k], snippets[j][k])
    {
      WellFormedSameSettings(k, snippets[i][k], snippets[j][k], cfg);
    }
  }

  /** A snippet holds `k` exactly when its table generates `k`. */
  lemma SnippetsKeys(tables: Entries, cfg: AlarmConfig, snippets: seq<AlarmMap>, k: string)
    requires Snippets(tables, cfg) == Success(snippets)
    ensures forall i :: 0 <= i < |snippets| ==> (k in snippets[i] <==> GeneratesKey(tables[i].1, cfg, k))
  {
    forall i | 0 <= i < |snippets| ensures k in snippets[i] <==> GeneratesKey(tables[i].1, cfg, k) {
      assert Snippet(tables[i].0, tables[i].1, cfg) == Success(snippets[i]);
    }
  }

  /** The keys the snippets of a selection hold are the keys its tables
      generate. */
  lemma SelectionKeys(es: Entries, cfg: AlarmConfig, snippets: seq<AlarmMap>, k: string)
    requires Snippets(FindDynamoTables(es, cfg), cfg) == Success(snippets)
    ensures k in SnippetKeys(snippets) <==>
              exists e :: e in es && MatchFilters(e.0, e.1.resourceType, cfg) && GeneratesKey(e.1, cfg, k)
  {
    var tables := FindDynamoTables(es, cfg);
    SnippetsKeys(tables, cfg, snippets, k);
    if k in SnippetKeys(snippets) {
      HeldKeyIsGenerated(tables, cfg, snippets, k);
    }
    if exists e :: e in es && MatchFilters(e.0, e.1.resourceType, cfg) && GeneratesKey(e.1, cfg, k) {
      var e :| e in es && MatchFilters(e.0, e.1.resourceType, cfg) && GeneratesKey(e.1, cfg, k);
      GeneratedKeyIsHeld(tables, cfg, snippets, k, e);
    }
  }

  lemma HeldKeyIsGenerated(tables: Entries, cfg: AlarmConfig, snippets: seq<AlarmMap>, k: string)
    requires |snippets| == |tables|
    requires forall i :: 0 <= i < |snippets| ==> (k in snippets[i] <==> GeneratesKey(tables[i].1, cfg, k))
    requires k in SnippetKeys(snippets)
    ensures exists e :: e in tables && GeneratesKey(e.1, cfg, k)
  {
    var i :| 0 <= i < |snippets| && k in snippets[i];
    assert tables[i] in tables;
  }

  lemma GeneratedKeyIsHeld(tables: Entries, cfg: AlarmConfig, snippets: seq<AlarmMap>, k: string, e: (string, Resource))
    requires |snippets| == |tables|
    requires forall i :: 0 <= i < |snippets| ==> (k in snippets[i] <==> GeneratesKey(tables[i].1, cfg, k))
    requires e in tables && GeneratesKey(e.1, cfg, k)
    ensures k in SnippetKeys(snippets)
  {
    var i :| 0 <= i < |tables| && tables[i] == e;
    assert k in snippets[i];
  }

  /** The keys after `addAlarms` are the keys before plus one per enabled
      alarm kind of every selected table. */
  lemma AddAlarmsKeys(svc: Service, k: string)
    requires AddAlarms(svc).Success?
    requires svc.custom.Some?
    ensures svc.custom.value.filter.Some? && svc.resources.Some?
    ensures var cfg := Build(svc.custom.value).value;
            k in AddAlarms(svc).value <==>
              (|| k in svc.compiled
               || exists e :: e in svc.resources.value
                              && MatchFilters(e.0, e.1.resourceType, cfg)
                              && GeneratesKey(e.1, cfg, k))
  {
    var cfg := Build(svc.custom.value).value;
    SelectionKeys(svc.resources.value, cfg, Snippets(FindDynamoTables(svc.resources.value, cfg), cfg).value, k);
  }

  /** A key that no selected table generates keeps its entry. */
  lemma AddAlarmsKeepsOthers(svc: Service, k: string)
    requires AddAlarms(svc).Success?
    requires svc.custom.Some?
    requires k in svc.compiled
    ensures svc.custom.value.filter.Some? && svc.resources.Some?
    ensures var cfg := Build(svc.custom.value).value;
            (forall e :: e in svc.resources.value && MatchFilters(e.0, e.1.resourceType, cfg)
                         ==> !GeneratesKey(e.1, cfg, k))
            ==> AddAlarms(svc).value[k] == svc.compiled[k]
  {
    var cfg := Build(svc.custom.value).value;
    SelectionKeys(svc.resources.value, cfg, Snippets(FindDynamoTables(svc.resources.value, cfg), cfg).value, k);
  }

  /** A key that `addAlarms` added holds a well-formed alarm for one of the
      selected tables. */
  lemma AddAlarmsNewEntriesWellFormed(svc: Service, k: string)
    requires AddAlarms(svc).Success?
    requires svc.custom.Some?
    requires k in AddAlarms(svc).value && k !in svc.compiled
    ensures svc.custom.value.filter.Some? && svc.resources.Some?
    ensures var cfg := Build(svc.custom.value).value;
            var entry := AddAlarms(svc).value[k];
            && entry.AlarmEntry?
            && WellFormed(k, entry.alarm, cfg)
            && exists e :: e in svc.resources.value
                           && MatchFilters(e.0, e.1.resourceType, cfg)
                           && e.1.tableName == Some(entry.alarm.properties.dimensions[0].value)
  {
    var cfg := Build(svc.custom.value).value;
    var tables := FindDynamoTables(svc.resources.value, cfg);
    var snippets := Snippets(tables, cfg).value;
    SnippetsUniform(tables, cfg, snippets);
    SnippetsWellFormed(tables, cfg, snippets);
    MergeAllLastWins(svc.compiled, snippets, k);
    var a := LastAlarm(snippets, k).value;
    var i :| 0 <= i < |snippets| && k in snippets[i] && a == snippets[i][k];
    assert tables[i] in tables;
  }

  /** When several selected tables generate the same key, the last one wins:
      the key ends up holding that table's alarm, merged onto whatever the
      template held there before. */
  lemma AddAlarmsLaterTableWins(svc: Service, k: string)
    requires AddAlarms(svc).Success?
    requires svc.custom.Some?
    requires svc.custom.value.filter.Some? && svc.resources.Some?
    ensures var cfg := Build(svc.custom.value).value;
            var tables := FindDynamoTables(svc.resources.value, cfg);
            var out := AddAlarms(svc).value;
            forall i :: 0 <= i < |tables| && GeneratesKey(tables[i].1, cfg, k)
                        && (forall j :: i < j < |tables| ==> !GeneratesKey(tables[j].1, cfg, k))
                        ==> Snippet(tables[i].0, tables[i].1, cfg).Success?
                            && k in Snippet(tables[i].0, tables[i].1, cfg).value
                            && out[k] == MergeEntry(Get(svc.compiled, k), Snippet(tables[i].0, tables[i].1, cfg).value[k])
  {
    var cfg := Build(svc.custom.value).value;
    var tables := FindDynamoTables(svc.resources.value, cfg);
    var snippets := Snippets(tables, cfg).value;
    SnippetsUniform(tables, cfg, snippets);
    SnippetsKeys(tables, cfg, snippets, k);
    forall i | 0 <= i < |tables| && GeneratesKey(tables[i].1, cfg, k)
               && (forall j :: i < j < |tables| ==> !GeneratesKey(tables[j].1, cfg, k))
      ensures LastAlarm(snippets, k) == Some(snippets[i][k])
    {
      LastAlarmIsLastHolder(snippets, k, i);
    }
    MergeAllLastWins(svc.compiled, snippets, k);
  }

  lemma {:induction false} LastAlarmIsLastHolder(snippets: seq<AlarmMap>, k: string, i: int)
    requires 0 <= i < |snippets| && k in snippets[i]
    requires forall j :: i < j < |snippets| ==> k !in snippets[j]
    ensures LastAlarm(snippets, k) == Some(snippets[i][k])
  {
    if i < |snippets| - 1 {
      var init := snippets[..|snippets| - 1];
      LastAlarmIsLastHolder(init, k, i);
    }
  }

  /** Running `addAlarms` again on its own output changes nothing. */
  lemma AddAlarmsIdempotent(svc: Service)
    requires AddAlarms(svc).Success?
    ensures AddAlarms(svc.(compiled := AddAlarms(svc).value)) == AddAlarms(svc)
  {
    if svc.custom.Some? {
      var cfg := Build(svc.custom.value).value;
      var tables := FindDynamoTables(svc.resources.value, cfg);
      var snippets := Snippets(tables, cfg).value;
      SnippetsUniform(tables, cfg, snippets);
      MergeAllIdempotent(svc.compiled, snippets);
    }
  }
}

=== FILE: sanitize.dfy ===
/** The table-name sanitisation used to build alarm logical ids: the regular
    expression `/[^0-9a-z]/gi` replaced by the empty string, i.e. every
    character outside `[0-9a-zA-Z]` is dropped. */
module Sanitize {

  /** The characters the case-insensitive class `[0-9a-z]` accepts. */
  predicate IsAlphaNumeric(c: char)
  {
    ('0' <= c <= '9') || ('a' <= c <= 'z') || ('A' <= c <= 'Z')
  }

  predicate AllAlphaNumeric(s: string)
  {
    forall i :: 0 <= i < |s| ==> IsAlphaNumeric(s[i])
  }

  /** Drops every character that is not an ASCII letter or digit. */
  function StripNonAlphaNumeric(s: string): (r: string)
    ensures AllAlphaNumeric(r)
    ensures |r| <= |s|
  {
    if s == [] then []
    else (if IsAlphaNumeric(s[0]) then [s[0]] else []) + StripNonAlphaNumeric(s[1..])
  }

  /** Sanitisation distributes over concatenation: characters are kept in
      their original order. */
  lemma {:induction false} StripAppend(a: string, b: string)
    ensures StripNonAlphaNumeric(a + b) == StripNonAlphaNumeric(a) + StripNonAlphaNumeric(b)
  {
    if a == [] {
      assert a + b == b;
    } else {
      var head := if IsAlphaNumeric(a[0]) then [a[0]] else [];
      assert (a + b)[0] == a[0];
      assert (a + b)[1..] == a[1..] + b;
      assert StripNonAlphaNumeric(a + b) == head + StripNonAlphaNumeric(a[1..] + b);
      StripAppend(a[1..], b);
      assert StripNonAlphaNumeric(a) == head + StripNonAlphaNumeric(a[1..]);
      assert head + (StripNonAlphaNumeric(a[1..]) + StripNonAlphaNumeric(b))
             == (head + StripNonAlphaNumeric(a[1..])) + StripNonAlphaNumeric(b);
    }
  }

  /** Every alphanumeric character survives with its multiplicity, and no
      other character does. */
  lemma {:induction false} StripKeepsExactlyAlphaNumeric(s: string)
    ensures forall c :: multiset(StripNonAlphaNumeric(s))[c]
                        == if IsAlphaNumeric(c) then multiset(s)[c] else 0
  {
    if s != [] {
      StripKeepsExactlyAlphaNumeric(s[1..]);
      assert s == [s[0]] + s[1..];
      assert multiset(s) == multiset([s[0]]) + multiset(s[1..]);
    }
  }

  /** A string is left unchanged by sanitisation exactly when it is already
      alphanumeric. */
  lemma {:induction false} StripFixesExactlyAlphaNumeric(s: string)
    ensures StripNonAlphaNumeric(s) == s <==> AllAlphaNumeric(s)
  {
    if s != [] && AllAlphaNumeric(s) {
      assert AllAlphaNumeric(s[1..]) by {
        forall i | 0 <= i < |s[1..]| ensures IsAlphaNumeric(s[1..][i]) {
          assert s[1..][i] == s[i + 1];
        }
      }
      StripFixesExactlyAlphaNumeric(s[1..]);
      assert s == [s[0]] + s[1..];
    }
  }

  /** Sanitising twice is the same as sanitising once. */
  lemma StripIdempotent(s: string)
    ensures StripNonAlphaNumeric(StripNonAlphaNumeric(s)) == StripNonAlphaNumeric(s)
  {
    StripFixesExactlyAlphaNumeric(StripNonAlphaNumeric(s));
  }

  /** Sanitisation is not injective: `orders-1` and `orders_1` collapse to
      the same identifier. */
  lemma StripNotInjective()
    ensures "orders-1" != "orders_1"
    ensures StripNonAlphaNumeric("orders-1") == StripNonAlphaNumeric("orders_1") == "orders1"
  {
    assert "orders-1"[6] != "orders_1"[6];
    StripOrders('-');
    StripOrders('_');
  }

  lemma StripOrders(c: char)
    requires !IsAlphaNumeric(c)
    ensures StripNonAlphaNumeric("orders" + [c] + "1") == "orders1"
  {
    assert AllAlphaNumeric("orders");
    StripDropsOneSeparator("orders", c, "1");
  }

  lemma StripDropsOneSeparator(a: string, c: char, b: string)
    requires AllAlphaNumeric(a) && AllAlphaNumeric(b) && !IsAlphaNumeric(c)
    ensures StripNonAlphaNumeric(a + [c] + b) == a + b
  {
    StripAppend(a + [c], b);
    StripAppend(a, [c]);
    StripFixesExactlyAlphaNumeric(a);
    StripFixesExactlyAlphaNumeric(b);
    assert [c][1..] == [];
    assert StripNonAlphaNumeric([c]) == [];
    assert a + [] == a;
  }
}

=== FILE: scenarios.dfy ===
/** Worked instances of `addAlarms` on small inputs. */
module Scenarios {
  import opened Wrappers
  import opened Sanitize
  import opened Config
  import opened Tables
  import opened Alarms
  import opened Templates
  import opened Plugin

  function ReadOnlyConfig(filter: seq<string>): (r: RawConfig)
  {
    RawConfig(Some(5), None, Some(60), Some(1), Some("Topic"), Some(filter))
  }

  /** An explicit filter selects only the tables it names. */
  lemma ExplicitFilterScenario()
    ensures var orders := ("OrdersTable", Resource(DynamoTableType, Some("orders")));
            var users := ("UsersTable", Resource(DynamoTableType, Some("users")));
            var cfg := Build(ReadOnlyConfig(["OrdersTable"]));
            cfg.Success? && FindDynamoTables([orders, users], cfg.value) == [orders]
  {
    var orders := ("OrdersTable", Resource(DynamoTableType, Some("orders")));
    var users := ("UsersTable", Resource(DynamoTableType, Some("users")));
    var cfg := Build(ReadOnlyConfig(["OrdersTable"])).value;
    assert FindDynamoTables([users], cfg) == [];
    assert [orders, users][1..] == [users];
  }

  lemma CollisionSnippets(t1: (string, Resource), t2: (string, Resource), cfg: AlarmConfig)
    requires cfg.addToAll && cfg.createReadAlarm && !cfg.createWriteAlarm
    requires t1.1.resourceType == t2.1.resourceType == DynamoTableType
    requires t1.1.tableName.Some? && t2.1.tableName.Some?
    ensures Snippets(FindDynamoTables([t1, t2], cfg), cfg)
            == Success([CreateReadAlarm(t1.1.tableName.value, cfg), CreateReadAlarm(t2.1.tableName.value, cfg)])
  {
    assert [t1, t2][1..] == [t2];
    assert [t2][1..] == [];
    assert FindDynamoTables([t1, t2], cfg) == [t1, t2];
    var s1 := CreateReadAlarm(t1.1.tableName.value, cfg);
    var s2 := CreateReadAlarm(t2.1.tableName.value, cfg);
    assert Snippet(t1.0, t1.1, cfg) == Success(s1) by {
      assert s1 + map[] == s1;
    }
    assert Snippet(t2.0, t2.1, cfg) == Success(s2) by {
      assert s2 + map[] == s2;
    }
    assert Snippets([t2][1..], cfg) == Success([]);
    assert [s2] + [] == [s2];
    assert Snippets([t2], cfg) == Success([s2]);
    assert Snippets([t1, t2], cfg) == Success([s1] + [s2]);
    assert [s1] + [s2] == [s1, s2];
  }

  /** Two tables whose names sanitise alike (such as `orders-1` and
      `orders_1`) share one alarm, and the later table's alarm is the one
      left in the template. */
  lemma CollisionScenario(t1: (string, Resource), t2: (string, Resource))
    requires t1.1.resourceType == t2.1.resourceType == DynamoTableType
    requires t1.1.tableName.Some? && t2.1.tableName.Some?
    requires StripNonAlphaNumeric(t1.1.tableName.value) == StripNonAlphaNumeric(t2.1.tableName.value)
    ensures var key := AlarmKey(t2.1.tableName.value, ReadSuffix);
            var out := AddAlarms(Service(Some(ReadOnlyConfig(["*"])), Some([t1, t2]), map[]));
            && out.Success?
            && out.value.Keys == {key}
            && out.value[key].AlarmEntry?
            && out.value[key].alarm.properties.dimensions
                 == [Dimension(TableNameDimension, t2.1.tableName.value)]
  {
    var cfg := Build(ReadOnlyConfig(["*"])).value;
    CollisionSnippets(t1, t2, cfg);
    CollisionMerge(t1.1.tableName.value, t2.1.tableName.value, cfg);
  }

  lemma CollisionMerge(n1: string, n2: string, cfg: AlarmConfig)
    requires StripNonAlphaNumeric(n1) == StripNonAlphaNumeric(n2)
    ensures var key := AlarmKey(n2, ReadSuffix);
            MergeAll(map[], [CreateReadAlarm(n1, cfg), CreateReadAlarm(n2, cfg)])
              == map[key := AlarmEntry(CreateReadAlarm(n2, cfg)[key])]
  {
    var key := AlarmKey(n2, ReadSuffix);
    var s1 := CreateReadAlarm(n1, cfg);
    var s2 := CreateReadAlarm(n2, cfg);
    var a1, a2 := s1[key], s2[key];
    assert SameSettings(a1, a2);
    MergeAlarmLaterWins(a1, a2);
    var m1 := MergeInto(map[], s1);
    assert m1 == map[key := AlarmEntry(a1)];
    assert MergeInto(m1, s2) == map[key := AlarmEntry(a2)];
    assert [s1, s2][..1] == [s1];
    assert [s1, s2][..1][..0] == [];
    assert MergeAll(map[], [s1, s2]) == MergeInto(MergeInto(MergeAll(map[], []), s1), s2);
  }
}

=== FILE: tables.dfy ===
/** Selection of the DynamoDB tables that receive alarms
    (`matchFilters` and `findDynamoTables`). */
module Tables {
  import opened Wrappers
  import opened Config

  const DynamoTableType: string := "AWS::DynamoDB::Table"

  /** A CloudFormation resource as far as the plugin reads it: its `Type`
      and its `Properties.TableName`, `None` when that is absent or not a
      string. */
  datatype Resource = Resource(resourceType: string, tableName: Option<string>)

  /** A resource map in `Object.entries` order. */
  type Entries = seq<(string, Resource)>

  /** JavaScript object keys are unique. */
  predicate UniqueKeys(es: Entries)
  {
    forall i, j :: 0 <= i < j < |es| ==> es[i].0 != es[j].0
  }

  /** The object an entry list denotes. */
  function ToMap(es: Entries): (m: map<string, Resource>)
    ensures m.Keys == set e | e in es :: e.0
  {
    if es == [] then map[]
    else ToMap(es[..|es| - 1])[es[|es| - 1].0 := es[|es| - 1].1]
  }

  /** `ServerlessPlugin.matchFilters`: the type must be exactly a DynamoDB
      table and the logical name must pass the filter. */
  predicate MatchFilters(name: string, resourceType: string, cfg: AlarmConfig)
  {
    resourceType == DynamoTableType && TableNameMatches(cfg, name)
  }

  /** `ServerlessPlugin.findDynamoTables`: the entries that pass
      `MatchFilters`, unchanged. */
  function FindDynamoTables(es: Entries, cfg: AlarmConfig): (r: Entries)
    ensures forall e :: e in r <==> e in es && MatchFilters(e.0, e.1.resourceType, cfg)
    ensures |r| <= |es|
  {
    if es == [] then []
    else
      (if MatchFilters(es[0].0, es[0].1.resourceType, cfg) then [es[0]] else [])
      + FindDynamoTables(es[1..], cfg)
  }

  /** Selection keeps the input order. */
  lemma {:induction false} FindAppend(a: Entries, b: Entries, cfg: AlarmConfig)
    ensures FindDynamoTables(a + b, cfg) == FindDynamoTables(a, cfg) + FindDynamoTables(b, cfg)
  {
    if a == [] {
      assert a + b == b;
    } else {
      assert (a + b)[0] == a[0];
      assert (a + b)[1..] == a[1..] + b;
      FindAppend(a[1..], b, cfg);
    }
  }

  /** Whatever the filter says, only DynamoDB tables are selected. */
  lemma TypeGate(es: Entries, cfg: AlarmConfig)
    ensures forall e :: e in FindDynamoTables(es, cfg) ==> e.1.resourceType == DynamoTableType
  {
  }

  lemma {:induction false} FindKeepsUniqueKeys(es: Entries, cfg: AlarmConfig)
    requires UniqueKeys(es)
    ensures UniqueKeys(FindDynamoTables(es, cfg))
  {
    if es != [] {
      FindKeepsUniqueKeys(es[1..], cfg);
      var rest := FindDynamoTables(es[1..], cfg);
      forall e | e in rest ensures e.0 != es[0].0 {
        var j :| 0 <= j < |es[1..]| && es[1..][j] == e;
        assert es[j + 1] == e;
      }
    }
  }

  lemma {:induction false} ToMapLookup(es: Entries, i: int)
    requires UniqueKeys(es)
    requires 0 <= i < |es|
    ensures es[i].0 in ToMap(es) && ToMap(es)[es[i].0] == es[i].1
    decreases |es|
  {
    if i < |es| - 1 {
      ToMapLookup(es[..|es| - 1], i);
    }
  }

  /** Viewed as objects, the selection is the sub-map of the input made of
      the entries that pass the filter: no key is added and each kept value
      is the input's value. */
  lemma {:induction false} SelectionIsSubMap(es: Entries, cfg: AlarmConfig)
    requires UniqueKeys(es)
    ensures var m := ToMap(es);
            ToMap(FindDynamoTables(es, cfg))
              == map k | k in m && MatchFilters(k, m[k].resourceType, cfg) :: m[k]
  {
    var r := FindDynamoTables(es, cfg);
    var m := ToMap(es);
    var sub := map k | k in m && MatchFilters(k, m[k].resourceType, cfg) :: m[k];
    FindKeepsUniqueKeys(es, cfg);
    forall k | k in ToMap(r) ensures k in sub && ToMap(r)[k] == sub[k] {
      SelectedKeyAgrees(es, r, cfg, k);
    }
    forall k | k in sub ensures k in ToMap(r) {
      AdmittedKeySelected(es, r, cfg, k);
    }
  }

  lemma SelectedKeyAgrees(es: Entries, r: Entries, cfg: AlarmConfig, k: string)
    requires UniqueKeys(es) && UniqueKeys(r)
    requires r == FindDynamoTables(es, cfg)
    requires k in ToMap(r)
    ensures k in ToMap(es)
    ensures MatchFilters(k, ToMap(es)[k].resourceType, cfg)
    ensures ToMap(r)[k] == ToMap(es)[k]
  {
    var i :| 0 <= i < |r| && r[i].0 == k;
    ToMapLookup(r, i);
    assert r[i] in es;
    var j :| 0 <= j < |es| && es[j] == r[i];
    ToMapLookup(es, j);
  }

  lemma AdmittedKeySelected(es: Entries, r: Entries, cfg: AlarmConfig, k: string)
    requires UniqueKeys(es)
    requires r == FindDynamoTables(es, cfg)
    requires k in ToMap(es) && MatchFilters(k, ToMap(es)[k].resourceType, cfg)
    ensures k in ToMap(r)
  {
    var j :| 0 <= j < |es| && es[j].0 == k;
    ToMapLookup(es, j);
    assert es[j] in r;
  }
}

=== FILE: templates.dfy ===
/** The merge of generated alarms into the compiled template's `Resources`
    (`_.merge(compiledCloudFormationTemplate.Resources, alarm)`), restricted to
    what that call can meet: a generated alarm written over nothing, over an
    alarm already there, or over some other resource. */
module Templates {
  import opened Wrappers
  import opened Alarms

  /** A resource of the compiled template. */
  datatype Entry = AlarmEntry(alarm: Alarm) | OtherResource(resourceType: string)

  type Resources = map<string, Entry>
  type AlarmMap = map<string, Alarm>

  /** What `m` holds at `k` (a template resource, an alarm), `None` when the key is absent. */
  function Get<K, V>(m: map<K, V>, k: K): (r: Option<V>)
    ensures r.Some? <==> k in m
    ensures r.Some? ==> r.value == m[k]
  {
    if k in m then Some(m[k]) else None
  }

  /** lodash skips an `undefined` source value when the destination has one. */
  function MergeOption<T>(dest: Option<T>, src: Option<T>): (r: Option<T>)
    ensures src.Some? ==> r == src
    ensures src.None? ==> r == dest
  {
    if src.Some? then src else dest
  }

  /** lodash merges arrays index by index: the result is as long as the longer
      of the two, merged elements where both have one, the other's element
      where only one has. */
  function MergeArrays<T>(dest: seq<T>, src: seq<T>, merge: (T, T) -> T): (r: seq<T>)
    ensures |r| == if |dest| < |src| then |src| else |dest|
    ensures forall i :: 0 <= i < |dest| && |src| <= i ==> r[i] == dest[i]
    ensures forall i :: 0 <= i < |src| && |dest| <= i ==> r[i] == src[i]
    ensures forall i :: 0 <= i < |dest| && i < |src| ==> r[i] == merge(dest[i], src[i])
  {
    var n := if |dest| < |src| then |src| else |dest|;
    seq(n, i requires 0 <= i < n =>
      if i < |dest| && i < |src| then merge(dest[i], src[i])
      else if i < |src| then src[i]
      else dest[i])
  }

  /** Both fields of a generated dimension are defined strings, so the src
      dimension replaces the dest one. */
  function MergeDimension(dest: Dimension, src: Dimension): (r: Dimension)
  {
    src
  }

  function MergeRef(dest: Ref, src: Ref): (r: Ref)
  {
    Ref(MergeOption(dest.ref, src.ref))
  }

  /** `_.merge` of a generated alarm onto an alarm already in the template:
      defined scalars overwrite, undefined ones keep the dest value, arrays
      merge index by index. */
  function MergeAlarm(dest: Alarm, src: Alarm): (r: Alarm)
  {
    var o, n := dest.properties, src.properties;
    Alarm(src.resourceType, AlarmProperties(
      n.alarmDescription,
      n.namespace,
      n.metricName,
      MergeArrays(o.dimensions, n.dimensions, MergeDimension),
      n.statistic,
      MergeOption(o.period, n.period),
      MergeOption(o.evaluationPeriods, n.evaluationPeriods),
      MergeOption(o.threshold, n.threshold),
      n.comparisonOperator,
      n.treatMissingData,
      MergeArrays(o.alarmActions, n.alarmActions, MergeRef),
      MergeArrays(o.okActions, n.okActions, MergeRef)))
  }

  /** The entry a key holds after a generated alarm is merged onto what the
      key held before. */
  function MergeEntry(dest: Option<Entry>, src: Alarm): (r: Entry)
  {
    match dest
    case Some(AlarmEntry(a)) => AlarmEntry(MergeAlarm(a, src))
    case _ => AlarmEntry(src)
  }

  /** One `_.merge` call: every generated key is present afterwards and
      every other key keeps its entry. */
  function MergeInto(target: Resources, snippet: AlarmMap): (r: Resources)
    ensures r.Keys == target.Keys + snippet.Keys
    ensures forall k :: k in target && k !in snippet ==> r[k] == target[k]
    ensures forall k :: k in snippet ==> r[k].AlarmEntry?
  {
    map k | k in target.Keys + snippet.Keys ::
      if k in snippet then MergeEntry(Get(target, k), snippet[k]) else target[k]
  }

  /** The union of the keys of a list of snippets. */
  function SnippetKeys(snippets: seq<AlarmMap>): (ks: set<string>)
    ensures forall k :: k in ks <==> exists i :: 0 <= i < |snippets| && k in snippets[i]
  {
    if snippets == [] then {}
    else
      var init := snippets[..|snippets| - 1];
      assert forall i :: 0 <= i < |init| ==> init[i] == snippets[i];
      SnippetKeys(init) + snippets[|snippets| - 1].Keys
  }

  /** `alarms.forEach(alarm => _.merge(Resources, alarm))`. */
  function MergeAll(target: Resources, snippets: seq<AlarmMap>): (r: Resources)
    ensures r.Keys == target.Keys + SnippetKeys(snippets)
    ensures forall k :: k in target && k !in SnippetKeys(snippets) ==> r[k] == target[k]
  {
    if snippets == [] then target
    else MergeInto(MergeAll(target, snippets[..|snippets| - 1]), snippets[|snippets| - 1])
  }

  /** The alarm the last snippet mentioning `k` holds for it. */
  function LastAlarm(snippets: seq<AlarmMap>, k: string): (r: Option<Alarm>)
    ensures r.Some? <==> k in SnippetKeys(snippets)
    ensures r.Some? ==> exists i :: 0 <= i < |snippets| && k in snippets[i] && r.value == snippets[i][k]
  {
    if snippets == [] then None
    else if k in snippets[|snippets| - 1] then Some(snippets[|snippets| - 1][k])
    else
      var init := snippets[..|snippets| - 1];
      assert forall i :: 0 <= i < |init| ==> init[i] == snippets[i];
      LastAlarm(init, k)
  }

  /** Two alarms agree on everything that `_.merge` would not simply
      overwrite, as any two alarms built from one config for one key do. */
  predicate SameSettings(a1: Alarm, a2: Alarm)
  {
    var p1, p2 := a1.properties, a2.properties;
    && p1.period == p2.period
    && p1.evaluationPeriods == p2.evaluationPeriods
    && p1.threshold == p2.threshold
    && p1.alarmActions == p2.alarmActions
    && p1.okActions == p2.okActions
    && |p1.dimensions| == |p2.dimensions|
  }

  /** Merging an array onto the result of merging the same array changes
      nothing, when the element merge has that property. */
  lemma MergeArraysIdempotent<T>(dest: seq<T>, src: seq<T>, merge: (T, T) -> T)
    requires forall a, b :: merge(merge(a, b), b) == merge(a, b)
    requires forall a :: merge(a, a) == a
    ensures MergeArrays(MergeArrays(dest, src, merge), src, merge) == MergeArrays(dest, src, merge)
  {
    var once := MergeArrays(dest, src, merge);
    var twice := MergeArrays(once, src, merge);
    forall i | 0 <= i < |twice| ensures twice[i] == once[i] {
      if i < |src| && i < |dest| {
        assert twice[i] == merge(merge(dest[i], src[i]), src[i]);
      } else if i < |src| {
        assert twice[i] == merge(src[i], src[i]);
      }
    }
  }

  /** When the element merge lets the newer element win, a later array of
      at least the same length overrides an earlier one. */
  lemma MergeArraysOverride<T>(dest: seq<T>, s1: seq<T>, s2: seq<T>, merge: (T, T) -> T)
    requires |s1| <= |s2|
    requires forall a, b :: merge(a, b) == b
    ensures MergeArrays(MergeArrays(dest, s1, merge), s2, merge) == MergeArrays(dest, s2, merge)
  {
    var first := MergeArrays(dest, s1, merge);
    var twice := MergeArrays(first, s2, merge);
    var once := MergeArrays(dest, s2, merge);
    forall i | 0 <= i < |twice| ensures twice[i] == once[i] {
      if i < |s2| && i < |first| {
        assert twice[i] == merge(first[i], s2[i]);
      }
      if i < |s2| && i < |dest| {
        assert once[i] == merge(dest[i], s2[i]);
      }
    }
  }

  /** Merging an array onto itself leaves it unchanged. */
  lemma MergeArraysSelf<T>(s: seq<T>, merge: (T, T) -> T)
    requires forall a :: merge(a, a) == a
    ensures MergeArrays(s, s, merge) == s
  {
  }

  /** Merging an alarm onto one with the same settings yields the newer
      alarm: a collision is won by the later table. */
  lemma MergeAlarmLaterWins(a1: Alarm, a2: Alarm)
    requires SameSettings(a1, a2)
    ensures MergeAlarm(a1, a2) == a2
  {
    MergeArraysOverride([], a1.properties.dimensions, a2.properties.dimensions, MergeDimension);
    MergeArraysSelf(a2.properties.alarmActions, MergeRef);
    MergeArraysSelf(a2.properties.okActions, MergeRef);
  }

  /** A second merge of an alarm with the same settings absorbs the first. */
  lemma MergeAlarmAbsorbs(dest: Alarm, a1: Alarm, a2: Alarm)
    requires SameSettings(a1, a2)
    ensures MergeAlarm(MergeAlarm(dest, a1), a2) == MergeAlarm(dest, a2)
  {
    var o := dest.properties;
    MergeArraysOverride(o.dimensions, a1.properties.dimensions, a2.properties.dimensions, MergeDimension);
    MergeArraysIdempotent(o.alarmActions, a2.properties.alarmActions, MergeRef);
    MergeArraysIdempotent(o.okActions, a2.properties.okActions, MergeRef);
  }

  lemma MergeEntryAbsorbs(dest: Option<Entry>, a1: Alarm, a2: Alarm)
    requires SameSettings(a1, a2)
    ensures MergeEntry(Some(MergeEntry(dest, a1)), a2) == MergeEntry(dest, a2)
  {
    match dest
    case Some(AlarmEntry(a)) => MergeAlarmAbsorbs(a, a1, a2);
    case _ => MergeAlarmLaterWins(a1, a2);
  }

  /** Merging the same snippet twice gives the same resources as merging it
      once. */
  lemma MergeIntoIdempotent(target: Resources, snippet: AlarmMap)
    ensures MergeInto(MergeInto(target, snippet), snippet) == MergeInto(target, snippet)
  {
    var once := MergeInto(target, snippet);
    forall k | k in snippet
      ensures MergeInto(once, snippet)[k] == once[k]
    {
      assert SameSettings(snippet[k], snippet[k]);
      MergeEntryAbsorbs(Get(target, k), snippet[k], snippet[k]);
    }
  }

  /** Every alarm any snippet holds for `k` has the same settings. */
  predicate UniformAt(snippets: seq<AlarmMap>, k: string)
  {
    forall i, j :: 0 <= i < |snippets| && 0 <= j < |snippets| && k in snippets[i] && k in snippets[j]
      ==> SameSettings(snippets[i][k], snippets[j][k])
  }

  /** After all merges, a generated key holds the last generated alarm for
      it merged onto what the target held before; other keys are untouched. */
  lemma {:induction false} MergeAllLastWins(target: Resources, snippets: seq<AlarmMap>, k: string)
    requires UniformAt(snippets, k)
    ensures LastAlarm(snippets, k).None? && k in target ==> MergeAll(target, snippets)[k] == target[k]
    ensures LastAlarm(snippets, k).Some? ==>
              MergeAll(target, snippets)[k] == MergeEntry(Get(target, k), LastAlarm(snippets, k).value)
  {
    if snippets != [] {
      var init, last := snippets[..|snippets| - 1], snippets[|snippets| - 1];
      assert forall i :: 0 <= i < |init| ==> init[i] == snippets[i];
      MergeAllLastWins(target, init, k);
      if k in last && LastAlarm(init, k).Some? {
        var i :| 0 <= i < |init| && k in init[i] && LastAlarm(init, k).value == init[i][k];
        assert SameSettings(snippets[i][k], snippets[|snippets| - 1][k]);
        MergeEntryAbsorbs(Get(target, k), LastAlarm(init, k).value, last[k]);
      }
    }
  }

  /** Repeating the whole sequence of merges changes nothing. The uniformity
      hypothesis holds for every snippet list the plugin generates
      (`Plugin.SnippetsUniform`), so `Plugin.AddAlarmsIdempotent` needs no
      hypothesis of its own. */
  lemma MergeAllIdempotent(target: Resources, snippets: seq<AlarmMap>)
    requires forall k :: UniformAt(snippets, k)
    ensures MergeAll(MergeAll(target, snippets), snippets) == MergeAll(target, snippets)
  {
    var once := MergeAll(target, snippets);
    forall k | k in SnippetKeys(snippets)
      ensures MergeAll(once, snippets)[k] == once[k]
    {
      MergeAllLastWins(target, snippets, k);
      MergeAllLastWins(once, snippets, k);
      var a := LastAlarm(snippets, k).value;
      var i :| 0 <= i < |snippets| && k in snippets[i] && a == snippets[i][k];
      assert SameSettings(a, a);
      MergeEntryAbsorbs(Get(target, k), a, a);
    }
  }
}

=== FILE: wrappers.dfy ===
/** Failure-compatible helper datatypes used throughout the model. */
module Wrappers {

  /** A value that may be absent: a JavaScript field that is `undefined`. */
  datatype Option<+T> = None | Some(value: T) {

    /** Converts an absent value into a failure carrying `error`. */
    function ToResult<E>(error: E): (r: Result<T, E>)
    {
      match this
      case Some(v) => Success(v)
      case None => Failure(error)
    }
  }

  /** Either a computed value or the error that aborted the computation
      (an exception thrown by the modelled code). */
  datatype Result<+R, +E> = Success(value: R) | Failure(error: E) {

    predicate IsFailure()
    {
      Failure?
    }

    function PropagateFailure<U>(): (r: Result<U, E>)
      requires Failure?
    {
      Failure(error)
    }

    function Extract(): (v: R)
      requires Success?
    {
      value
    }
  }
}
